=== FILE: README.md ===
# Throughput counter (tp-rs), modelled in Dafny

The library measures a rate: callers `report` units into a counter, and
`throughput()` turns the units reported since the window opened, over the
time that has elapsed since then, into units per second, and opens a new
window. The counter `Throughput<T>` is generic over a time source `T`
(`TimeSource`: `now()` and `elapsed()`); two wrappers put it behind a
blocking mutex (`ThroughputSynchronized`) or an async mutex
(`tokio_async::ThroughputAsyncSynchronized`).

The model is functional. A counter is the immutable record
`Counter(initialTime, sum)`, and each operation is a pure function that
returns the next counter:

- `ints.dfy`, module `Ints`: `u32`/`u64` as subset types of `int`, and the truncating `as u32` cast.
- `time.dfy`, module `Time`: `Duration` (whole seconds as a `u64`, nanoseconds below 10^9), and the denominator arithmetic of `throughput()`.
- `tp.dfy`, module `Tp`: std's `Option`, the counter and its operations `new`, `default`, `report`, `reset` and `throughput`.
- `sync.dfy`, module `Sync`: the two wrappers, plus histories of calls in the order the lock admits them.
- `fakes.dfy`, module `Fakes`: the unit tests' `FakeInstant` (10 s) and `ZeroTimeFakeInstant` (0 s), and the test scenarios.

The time source is abstract. Its instant type is the type parameter `T`.
`T::now()` is an argument `now: T` of every operation that opens a window.
The `Duration` that `elapsed()` returns is an argument `elapsed` of
`Throughput`.

The rate is kept exact, with no floating point. It is a `Rate(units,
millis)`, where `millis` is the denominator in whole milliseconds:
`(secs mod 2^32) * 1000 + nanos / 10^6`. `PerSecond` gives its value as a
Dafny `real` (an exact rational), `units * 1000 / millis`. The `f64`
expression `secs as u32 + subsec_millis / 1000.0` becomes the exact real
`DenominatorSeconds`. `Tp.Throughput` proves that the rate equals
`sum / DenominatorSeconds` whenever the denominator is nonzero.

Two behaviours of the code are easy to miss:

- The seconds are cast with `as u32`, so they wrap every 2^32 seconds. The denominator is therefore zero at any exact multiple of 2^32 seconds.
- `report` uses Rust's plain `+=`. This panics on overflow in a debug build and wraps in a release build.

## Model

| member | source | states |
|---|---|---|
| Ints.AsU32 | src/tp.rs:45 | `as u32` gives the one `u32` congruent to the seconds modulo 2^32, no larger than them; a value that fits is unchanged |
| Time.SubsecMillis | src/tp.rs:45 | `subsec_millis` is below 1000 and is the sub-second nanoseconds rounded down to a whole millisecond |
| Time.DenominatorMillis | src/tp.rs:43-46 | the denominator in milliseconds is the elapsed time, reduced modulo 2^32 seconds, rounded down to a whole millisecond, and below 2^32 * 1000 |
| Time.DenominatorSeconds | src/tp.rs:44-45 | the real-valued denominator (whole seconds after the cast plus milliseconds / 1000) is nonnegative and equals the millisecond denominator divided by 1000 |
| Time.WrappedNanos | src/tp.rs:45 | the elapsed nanoseconds modulo 2^32 seconds are the cast seconds times 10^9 plus the sub-second nanoseconds |
| Time.DenominatorZeroIff | src/tp.rs:44-46 | the denominator is zero exactly when the seconds are a multiple of 2^32 and less than a millisecond remains; the real and the integer denominators are zero together |
| Time.SubMillisecondIsZero | src/tp.rs:44-46 | any elapsed time under one millisecond gives a zero denominator |
| Time.SubMillisIgnored | src/tp.rs:45 | two elapsed times with equal seconds and equal whole milliseconds give equal denominators |
| Tp.New | src/tp.rs:26-31 | a new counter has sum 0 and starts its window at the instant `now()` gave |
| Tp.Default | src/tp.rs:58-62 | `default()` is the same counter as `new()` |
| Tp.Report | src/tp.rs:33-35 | `report(v)` raises the sum by exactly `v` and keeps the window start; it is defined only when the new sum fits in a `u32` |
| Tp.ReportChecked | src/tp.rs:33-35 | in a debug build, `report(v)` panics (None) exactly when `sum + v` exceeds `u32::MAX`, and otherwise behaves as `Report` |
| Tp.ReportWrapping | src/tp.rs:33-35 | in a release build, `report(v)` behaves as `Report` when the sum fits, and otherwise wraps to `sum + v - 2^32`, below the old sum; the window start is kept |
| Tp.Reset | src/tp.rs:37-40 | `reset()` leaves exactly the counter a fresh `new()` at the same instant would be |
| Tp.Throughput | src/tp.rs:42-55 | returns None exactly when the denominator is 0.0; otherwise the rate has the reported sum as units and the truncated window as millis, and its value per second is sum / denominator; the counter afterwards is always a fresh one |
| Tp.PerSecondOfMillis | src/tp.rs:49 | dividing the units by `millis` milliseconds is dividing by `millis / 1000` seconds |
| Tp.ThroughputNoneIff | src/tp.rs:44-47 | None exactly when the cast seconds and the sub-second milliseconds are both 0; so always None under 1 ms and at exact multiples of 2^32 seconds |
| Tp.ThroughputIgnoresSubMillis | src/tp.rs:45 | elapsed times with equal seconds and equal whole milliseconds give the same result and the same next counter |
| Tp.ReportAll | src/tp.rs:33-35 | reporting a sequence of values in order adds their total to the sum and keeps the window start |
| Tp.SumPermutation | src/tp.rs:33-35 | the total of the reported values does not depend on their order |
| Tp.ReportOrderIrrelevant | src/tp.rs:33-35 | reporting the same values in any order leaves the same counter, and an order that fits in a `u32` means every order fits |
| Tp.ReportsThenThroughput | src/tp.rs:33-55 | reports v1..vn into a fresh window and then `throughput()` give (v1+..+vn) / denominator, or None exactly when the denominator is zero |
| Tp.WindowIsolation | src/tp.rs:42-55 | after a `throughput()` the counter is fresh whatever it held, so the next result depends only on the reports made after it |
| Tp.ThroughputTwice | src/tp.rs:52-54 | a second `throughput()` with no report in between sees 0 units |
| Sync.SyncNew | src/tp.rs:68-73 | the blocking wrapper starts with a fresh inner counter |
| Sync.SyncDefault | src/tp.rs:88-92 | its `default()` is its `new()` |
| Sync.SyncReport | src/tp.rs:75-77 | its `report` has exactly the effect of `report` on the inner counter |
| Sync.SyncReset | src/tp.rs:79-81 | its `reset` has exactly the effect of `reset` on the inner counter |
| Sync.SyncThroughput | src/tp.rs:83-85 | its `throughput` returns what the inner counter's `throughput` returns and leaves its next state |
| Sync.AsyncNew | src/tp.rs:102-107 | the async wrapper starts with a fresh inner counter |
| Sync.AsyncDefault | src/tp.rs:122-126 | its `default()` is its `new()` |
| Sync.AsyncReport | src/tp.rs:109-111 | its `report` has exactly the effect of `report` on the inner counter |
| Sync.AsyncReset | src/tp.rs:113-115 | its `reset` has exactly the effect of `reset` on the inner counter |
| Sync.AsyncThroughput | src/tp.rs:117-119 | its `throughput` returns what the inner counter's `throughput` returns and leaves its next state |
| Sync.Run | src/tp.rs:33-55 | a debug-build history of calls on the bare counter returns one result per `throughput` call, and it fails only when the history contains a report |
| Sync.SyncRun | src/tp.rs:75-85 | a debug-build history of calls on the blocking wrapper returns one result per `throughput` call; an overflowing report poisons the mutex, so a failure needs a report in the history |
| Sync.AsyncRun | src/tp.rs:109-119 | a debug-build history of calls on the async wrapper never fails, because the tokio mutex does not poison, and it returns one result per `throughput` call |
| Sync.SyncRunIsRun | src/tp.rs:64-86 | for any order in which the lock admits calls, the blocking wrapper returns the same rates and ends with the same counter as the bare counter; in a debug build an overflowing report poisons the mutex, so the history fails exactly when the bare counter's would |
| Sync.AsyncRunIsRun | src/tp.rs:98-120 | for any order in which the lock admits calls, when no report overflows, the async wrapper returns the same rates and ends with the same counter as the bare counter |
| Sync.AsyncPanicIsSkipped | src/tp.rs:109-111 | the tokio mutex does not poison: a report that panics on overflow leaves the counter unchanged, and the other tasks' calls go on as if it had not been made |
| Sync.RunReports | src/tp.rs:33-35 | a history of reports only, applied one call at a time, returns no rates and leaves the counter that reporting the values in that order leaves |
| Sync.SyncReportsOrderIrrelevant | src/tp.rs:75-77 | no lost updates through the blocking wrapper: when the total of concurrent reports fits in a `u32`, in whatever order its lock admits them, it ends with the same counter, holding their total |
| Sync.AsyncReportsOrderIrrelevant | src/tp.rs:109-111 | no lost updates through the async wrapper: when the total of concurrent reports fits in a `u32`, in whatever order its lock admits them, it ends with the same counter, holding their total |
| Sync.AsyncOverflowLossDependsOnOrder | src/tp.rs:109-111 | in a debug build, when concurrent reports overflow, the async wrapper loses one, and which one depends on the lock order: `u32::MAX` then 1 keeps `u32::MAX`, and 1 then `u32::MAX` keeps 1 |
| Sync.ReportRacesThroughput | src/tp.rs:193-213 | in both orders a `report(v)` racing a `throughput()` on a fresh counter gives the stated result. When at least 1 ms has elapsed, the report is counted exactly once: in the returned rate when it goes first, in the open window when it goes second. Under 1 ms, `throughput()` returns None and resets, so a report that goes first is lost |
| Fakes.FakeElapsed | src/tp.rs:141-151 | `FakeInstant` reports exactly ten seconds |
| Fakes.ZeroElapsed | src/tp.rs:153-163 | `ZeroTimeFakeInstant` reports zero time |
| Fakes.FakeRate | src/tp.rs:141-151 | with the ten-second fake, the rate is the total reported divided by ten |
| Fakes.ZeroTimeIsNone | src/tp.rs:153-163 | with the zero-time fake, `throughput()` is None whatever was reported, and leaves a fresh counter |
| Fakes.TestBasic | src/tp.rs:173-177 | reporting 1 and 1 over ten seconds gives 0.2 |
| Fakes.TestZeroTime | src/tp.rs:180-190 | with zero time, `throughput()` is None both before and after a report |
| Fakes.TestTpSynchronizedInThreads | src/tp.rs:215-241 | one report of 1 through the blocking wrapper, read after the barrier, gives 0.1 |
| Fakes.TestAsyncTp | src/tp.rs:259-268 | two reports of 1 through the async wrapper give 0.2 |

## Left out

- The real clock `impl TimeSource for Instant` (src/tp.rs:10-18) reads the operating system's monotonic clock. Its readings are the `now` and `elapsed` arguments.
- Floating point (src/tp.rs:45-49): the `f64` sum, the `/ 1000.0` and the final division are modelled as exact rationals, so rounding in the last bit of the `f64` result is not modelled. The `denominator == 0.0` test is exact in both, because both terms are nonnegative.
- Lock acquisition and blocking or async waiting (src/tp.rs:64-127) are left out. Only their effect is kept: calls take effect one at a time, in some order. The poisoning of the blocking wrapper's mutex (src/tp.rs:64-92) is kept only as its outcome: in a debug build, after an overflowing report, the history fails. `Sync.SyncRun` then returns None for the whole history, so it also drops the rates that earlier `throughput()` calls had already returned to their callers (src/tp.rs:84).
- Tp.Report: a report that would overflow is excluded by the requires. This is the debug-build panic. `Tp.ReportChecked` and `Tp.ReportWrapping` model the debug and release outcomes of such a report.
- Sync.Run, Sync.SyncRun and Sync.AsyncRun model debug builds only: they branch on `Tp.ReportChecked`. In a release build `+=` wraps (`Tp.ReportWrapping`), so nothing panics or poisons. Histories of wrapping reports through the wrappers are not modelled.
- Sync.AsyncReportsOrderIrrelevant: promised only when the reports' total fits in a `u32`. Otherwise the async wrapper loses one report, and which one depends on the lock order (`Sync.AsyncOverflowLossDependsOnOrder`).
- Sync.SyncReportsOrderIrrelevant: promised only when the reports' total fits in a `u32`. Otherwise every order ends in a poisoned mutex, with no final counter.
- Sync.SyncReport: the same overflow precondition as `Tp.Report`. `Sync.SyncRun` turns an overflowing report into None.
- Sync.AsyncReport: the same overflow precondition as `Tp.Report`. `Sync.AsyncRun` skips an overflowing report and leaves the counter unchanged, since the panic ends only the reporting task.
- The first half of `test_basic` (src/tp.rs:167-171) and `test_in_threads` use the real clock and assert nothing. `Sync.ReportRacesThroughput` covers both orders that `test_in_threads` allows, for any elapsed time, including the sub-millisecond one that the real clock usually gives there.
- `test_delay` and `test_async_delay` (src/tp.rs:243-257) only sleep. tests/int_test.rs only constructs and reports. Neither checks anything.
- `Duration::new` normalising nanoseconds above one second: the fakes only build durations with zero nanoseconds.

=== FILE: fakes.dfy ===
/** The two fake time sources of the unit tests, as concrete elapsed
    times, and the scenarios the tests run with them. */
module Fakes {
  import opened Ints
  import opened Time
  import opened Tp
  import opened Sync

  /** `FakeInstant`: every window has lasted exactly ten seconds. */
  datatype FakeInstant = FakeInstant

  function FakeElapsed(i: FakeInstant): (d: Duration)
    ensures TotalNanos(d) == 10 * NANOS_PER_SEC
  {
    Duration(10, 0)
  }

  /** `ZeroTimeFakeInstant`: no time has passed in any window. */
  datatype ZeroTimeFakeInstant = ZeroTimeFakeInstant

  function ZeroElapsed(i: ZeroTimeFakeInstant): (d: Duration)
    ensures TotalNanos(d) == 0
  {
    Duration(0, 0)
  }

  /** With the ten-second fake, the rate of a fresh counter is the sum of
      the reports divided by ten. */
  lemma FakeRate(values: seq<u32>)
    requires Sum(values) <= U32_MAX
    ensures var c := ReportAll(New(FakeInstant), values);
      var r := Throughput(c, FakeElapsed(c.initialTime), FakeInstant);
      r.0.Some? && PerSecond(r.0.value) == Sum(values) as real / 10.0
  {
    var c := ReportAll(New(FakeInstant), values);
    assert c.sum == Sum(values);
    assert DenominatorMillis(Duration(10, 0)) == 10_000;
    assert Throughput(c, Duration(10, 0), FakeInstant).0 == Some(Rate(c.sum, 10_000));
    assert PerSecond(Rate(c.sum, 10_000)) == c.sum as real / 10.0;
  }

  /** With the zero-time fake, every `throughput()` is `None`, whatever was
      reported, and leaves an empty window. */
  lemma ZeroTimeIsNone(c: Counter<ZeroTimeFakeInstant>)
    ensures Throughput(c, ZeroElapsed(c.initialTime), ZeroTimeFakeInstant)
         == (None, New(ZeroTimeFakeInstant))
  {
  }

  /** `test_basic`: two reports of 1 over ten seconds give 0.2. */
  lemma TestBasic()
    ensures var c := Report(Report(New(FakeInstant), 1), 1);
      var r := Throughput(c, FakeElapsed(c.initialTime), FakeInstant);
      r.0.Some? && PerSecond(r.0.value) == 0.2
  {
  }

  /** `test_zero_time`: `None` before and after a report. */
  lemma TestZeroTime()
    ensures var c := New(ZeroTimeFakeInstant);
      var (first, c') := Throughput(c, ZeroElapsed(c.initialTime), ZeroTimeFakeInstant);
      var c'' := Report(c', 1);
      var (second, _) := Throughput(c'', ZeroElapsed(c''.initialTime), ZeroTimeFakeInstant);
      first.None? && second.None?
  {
  }

  /** `test_tp_synchronized_in_threads`: one report of 1 reaches the reader
      that waits at the barrier, which sees 0.1 over ten seconds. */
  lemma TestTpSynchronizedInThreads()
    ensures var s := SyncReport(SyncNew(FakeInstant), 1);
      var r := SyncThroughput(s, FakeElapsed(s.inner.initialTime), FakeInstant);
      r.0.Some? && PerSecond(r.0.value) == 0.1
  {
  }

  /** `test_async_tp`: two reports of 1 through the async wrapper give 0.2. */
  lemma TestAsyncTp()
    ensures var s := AsyncReport(AsyncReport(AsyncNew(FakeInstant), 1), 1);
      var r := AsyncThroughput(s, FakeElapsed(s.inner.initialTime), FakeInstant);
      r.0.Some? && PerSecond(r.0.value) == 0.2
  {
  }
}

=== FILE: ints.dfy ===
/** Rust's unsigned machine integers, as subset types of `int`, and the
    truncating `as u32` cast. */
module Ints {

  const U32_MAX: int := 0xFFFF_FFFF
  const U32_MODULUS: int := 0x1_0000_0000
  const U64_MODULUS: int := 0x1_0000_0000_0000_0000

  type u32 = x: int | 0 <= x <= U32_MAX
  type u64 = x: int | 0 <= x < U64_MODULUS

  /** `x as u32`: keeps the low 32 bits, i.e. the one `u32` congruent to `x`
      modulo 2^32; a value that already fits is unchanged. */
  function AsU32(x: u64): (r: u32)
    ensures r <= x
    ensures (x - r) % U32_MODULUS == 0
    ensures x <= U32_MAX ==> r == x
  {
    x % U32_MODULUS
  }
}

=== FILE: sync.dfy ===
/** The two lock-guarded wrappers, `ThroughputSynchronized<T>` (a blocking
    `std::sync::Mutex`) and `tokio_async::ThroughputAsyncSynchronized<T>` (a
    `tokio::sync::Mutex`). Each call takes the lock, delegates to the inner
    counter and releases it, so the calls of all threads or tasks take effect
    one at a time, in some total order. The model keeps that sequential
    view: a wrapper is the one counter it guards, and a history of calls is
    a sequence of operations applied in the order the lock admitted them. */
module Sync {
  import opened Ints
  import opened Time
  import opened Tp

  /** `ThroughputSynchronized<T>`. */
  datatype Synchronized<T> = Synchronized(inner: Counter<T>)

  /** `tokio_async::ThroughputAsyncSynchronized<T>`. */
  datatype AsyncSynchronized<T> = AsyncSynchronized(inner: Counter<T>)

  function SyncNew<T>(now: T): (s: Synchronized<T>)
    ensures s.inner == New(now)
  {
    Synchronized(Counter(now, 0))
  }

  function SyncDefault<T>(now: T): (s: Synchronized<T>)
    ensures s == SyncNew(now)
  {
    SyncNew(now)
  }

  function SyncReport<T>(s: Synchronized<T>, value: u32): (s': Synchronized<T>)
    requires s.inner.sum + value <= U32_MAX
    ensures s'.inner == Report(s.inner, value)
  {
    Synchronized(Report(s.inner, value))
  }

  function SyncReset<T>(s: Synchronized<T>, now: T): (s': Synchronized<T>)
    ensures s'.inner == Reset(s.inner, now)
  {
    Synchronized(Reset(s.inner, now))
  }

  function SyncThroughput<T>(s: Synchronized<T>, elapsed: Duration, now: T): (r: (Option<Rate>, Synchronized<T>))
    ensures r.0 == Throughput(s.inner, elapsed, now).0
    ensures r.1.inner == Throughput(s.inner, elapsed, now).1
  {
    var (tp, inner) := Throughput(s.inner, elapsed, now);
    (tp, Synchronized(inner))
  }

  function AsyncNew<T>(now: T): (s: AsyncSynchronized<T>)
    ensures s.inner == New(now)
  {
    AsyncSynchronized(Counter(now, 0))
  }

  function AsyncDefault<T>(now: T): (s: AsyncSynchronized<T>)
    ensures s == AsyncNew(now)
  {
    AsyncNew(now)
  }

  function AsyncReport<T>(s: AsyncSynchronized<T>, value: u32): (s': AsyncSynchronized<T>)
    requires s.inner.sum + value <= U32_MAX
    ensures s'.inner == Report(s.inner, value)
  {
    AsyncSynchronized(Report(s.inner, value))
  }

  function AsyncReset<T>(s: AsyncSynchronized<T>, now: T): (s': AsyncSynchronized<T>)
    ensures s'.inner == Reset(s.inner, now)
  {
    AsyncSynchronized(Reset(s.inner, now))
  }

  function AsyncThroughput<T>(s: AsyncSynchronized<T>, elapsed: Duration, now: T): (r: (Option<Rate>, AsyncSynchronized<T>))
    ensures r.0 == Throughput(s.inner, elapsed, now).0
    ensures r.1.inner == Throughput(s.inner, elapsed, now).1
  {
    var (tp, inner) := Throughput(s.inner, elapsed, now);
    (tp, AsyncSynchronized(inner))
  }

  /** One call on a counter or a wrapper, with the clock readings it sees. */
  datatype Op<T> = ReportOp(value: u32) | ResetOp(now: T) | ThroughputOp(elapsed: Duration, now: T)

  /** The number of `throughput` calls in a history. */
  function ThroughputCalls<T>(ops: seq<Op<T>>): nat
    decreases |ops|
  {
    if |ops| == 0 then 0
    else (if ops[0].ThroughputOp? then 1 else 0) + ThroughputCalls(ops[1..])
  }

  /** A history of calls on the bare counter in a debug build: the results
      of its `throughput` calls in order and the final counter, or `None`
      when a report overflows and panics the one owner of the counter. */
  function Run<T>(c: Counter<T>, ops: seq<Op<T>>): (r: Option<(seq<Option<Rate>>, Counter<T>)>)
    ensures r.Some? ==> |r.value.0| == ThroughputCalls(ops)
    ensures r.None? ==> exists i :: 0 <= i < |ops| && ops[i].ReportOp?
    decreases |ops|
  {
    if |ops| == 0 then Some(([], c))
    else match ops[0]
      case ReportOp(v) =>
        (match ReportChecked(c, v)
         case None => None
         case Some(c') => Run(c', ops[1..]))
      case ResetOp(now) => Run(Reset(c, now), ops[1..])
      case ThroughputOp(e, now) =>
        var (tp, c') := Throughput(c, e, now);
        match Run(c', ops[1..])
        case None => None
        case Some((rest, last)) => Some(([tp] + rest, last))
  }

  /** The same history of calls on the blocking wrapper, in a debug build.
      A report that panics does so while it holds the guard of
      `lock().unwrap()`, which poisons the `std::sync::Mutex`; every later
      call then panics in its own `unwrap()`, so the history ends in `None`. */
  function SyncRun<T>(s: Synchronized<T>, ops: seq<Op<T>>): (r: Option<(seq<Option<Rate>>, Synchronized<T>)>)
    ensures r.Some? ==> |r.value.0| == ThroughputCalls(ops)
    ensures r.None? ==> exists i :: 0 <= i < |ops| && ops[i].ReportOp?
    decreases |ops|
  {
    if |ops| == 0 then Some(([], s))
    else match ops[0]
      case ReportOp(v) =>
        (match ReportChecked(s.inner, v)
         case None => None
         case Some(_) => SyncRun(SyncReport(s, v), ops[1..]))
      case ResetOp(now) => SyncRun(SyncReset(s, now), ops[1..])
      case ThroughputOp(e, now) =>
        var (tp, s') := SyncThroughput(s, e, now);
        match SyncRun(s', ops[1..])
        case None => None
        case Some((rest, last)) => Some(([tp] + rest, last))
  }

  /** The same history of calls on the async wrapper, in a debug build. A
      `tokio::sync::Mutex` does not poison: a report that panics on overflow
      ends only its own task, and the lock is released with the counter
      unchanged, because `+=` panics before it stores. The other tasks'
      calls go on, and every `throughput` call returns its result. */
  function AsyncRun<T>(s: AsyncSynchronized<T>, ops: seq<Op<T>>): (r: (seq<Option<Rate>>, AsyncSynchronized<T>))
    ensures |r.0| == ThroughputCalls(ops)
    decreases |ops|
  {
    if |ops| == 0 then ([], s)
    else match ops[0]
      case ReportOp(v) =>
        (match ReportChecked(s.inner, v)
         case None => AsyncRun(s, ops[1..])
         case Some(_) => AsyncRun(AsyncReport(s, v), ops[1..]))
      case ResetOp(now) => AsyncRun(AsyncReset(s, now), ops[1..])
      case ThroughputOp(e, now) =>
        var (tp, s') := AsyncThroughput(s, e, now);
        var (rest, last) := AsyncRun(s', ops[1..]);
        ([tp] + rest, last)
  }

  /** Whatever order the lock admits the calls in, the blocking wrapper
      returns what the bare counter returns for the same calls in that
      order, and ends holding the counter the bare counter ends as. */
  lemma {:induction false} SyncRunIsRun<T>(c: Counter<T>, ops: seq<Op<T>>)
    ensures SyncRun(Synchronized(c), ops).None? <==> Run(c, ops).None?
    ensures SyncRun(Synchronized(c), ops).Some? ==>
      && SyncRun(Synchronized(c), ops).value.0 == Run(c, ops).value.0
      && SyncRun(Synchronized(c), ops).value.1.inner == Run(c, ops).value.1
    decreases |ops|
  {
    if |ops| > 0 {
      match ops[0]
      case ReportOp(v) =>
        if c.sum + v <= U32_MAX {
          SyncRunIsRun(Report(c, v), ops[1..]);
        }
      case ResetOp(now) =>
        SyncRunIsRun(Reset(c, now), ops[1..]);
      case ThroughputOp(e, now) =>
        SyncRunIsRun(Throughput(c, e, now).1, ops[1..]);
    }
  }

  /** When no report of the history overflows, the async wrapper returns
      what the bare counter returns for the same calls in that order, and
      ends holding the counter the bare counter ends as. */
  lemma {:induction false} AsyncRunIsRun<T>(c: Counter<T>, ops: seq<Op<T>>)
    ensures Run(c, ops).Some? ==>
      && AsyncRun(AsyncSynchronized(c), ops).0 == Run(c, ops).value.0
      && AsyncRun(AsyncSynchronized(c), ops).1.inner == Run(c, ops).value.1
    decreases |ops|
  {
    if |ops| > 0 {
      match ops[0]
      case ReportOp(v) =>
        if c.sum + v <= U32_MAX {
          AsyncRunIsRun(Report(c, v), ops[1..]);
        }
      case ResetOp(now) =>
        AsyncRunIsRun(Reset(c, now), ops[1..]);
      case ThroughputOp(e, now) =>
        AsyncRunIsRun(Throughput(c, e, now).1, ops[1..]);
    }
  }

  /** A report that panics in one task is invisible to the others: the
      async wrapper's history goes on as if that call had not been made. */
  lemma AsyncPanicIsSkipped<T>(s: AsyncSynchronized<T>, value: u32, ops: seq<Op<T>>)
    requires s.inner.sum + value > U32_MAX
    ensures AsyncRun(s, [ReportOp(value)] + ops) == AsyncRun(s, ops)
  {
  }

  /** One `report` call per value, in order. */
  function Reports<T>(values: seq<u32>): (ops: seq<Op<T>>)
    ensures |ops| == |values|
    ensures forall i :: 0 <= i < |values| ==> ops[i] == ReportOp(values[i])
  {
    seq(|values|, i requires 0 <= i < |values| => ReportOp(values[i]))
  }

  /** A history of reports only, admitted one at a time, returns no rates
      and leaves the counter that reporting the values in that order does. */
  lemma {:induction false} RunReports<T>(c: Counter<T>, values: seq<u32>)
    requires c.sum + Sum(values) <= U32_MAX
    ensures Run(c, Reports(values)) == Some(([], ReportAll(c, values)))
    decreases |values|
  {
    if |values| > 0 {
      var x := values[0];
      var rest := values[1..];
      assert values == [x] + rest;
      SumCons(x, rest);
      assert Reports<T>(values)[1..] == Reports(rest);
      RunReports(Report(c, x), rest);
      assert ReportAll(Report(c, x), rest) == ReportAll(c, values);
    }
  }

  /** No lost updates through the blocking wrapper: whatever order its lock
      admits a set of concurrent reports in, the wrapper ends with the same
      counter, which holds their total. */
  lemma SyncReportsOrderIrrelevant<T>(c: Counter<T>, a: seq<u32>, b: seq<u32>)
    requires multiset(a) == multiset(b)
    requires c.sum + Sum(a) <= U32_MAX
    ensures SyncRun(Synchronized(c), Reports(a)) == SyncRun(Synchronized(c), Reports(b))
    ensures SyncRun(Synchronized(c), Reports(a)).Some?
    ensures SyncRun(Synchronized(c), Reports(a)).value.1.inner.sum == c.sum + Sum(a)
  {
    SumPermutation(a, b);
    RunReports(c, a);
    RunReports(c, b);
    SyncRunIsRun(c, Reports(a));
    SyncRunIsRun(c, Reports(b));
  }

  /** No lost updates through the async wrapper, in the same sense. */
  lemma AsyncReportsOrderIrrelevant<T>(c: Counter<T>, a: seq<u32>, b: seq<u32>)
    requires multiset(a) == multiset(b)
    requires c.sum + Sum(a) <= U32_MAX
    ensures AsyncRun(AsyncSynchronized(c), Reports(a)) == AsyncRun(AsyncSynchronized(c), Reports(b))
    ensures AsyncRun(AsyncSynchronized(c), Reports(a)).1.inner.sum == c.sum + Sum(a)
  {
    SumPermutation(a, b);
    RunReports(c, a);
    RunReports(c, b);
    AsyncRunIsRun(c, Reports(a));
    AsyncRunIsRun(c, Reports(b));
  }

  /** When concurrent reports overflow, the async wrapper loses one of
      them, and which one depends on the order its lock admits them in:
      `u32::MAX` then 1 keeps `u32::MAX`, while 1 then `u32::MAX` keeps 1. */
  lemma AsyncOverflowLossDependsOnOrder<T>(start: T)
    ensures AsyncRun(AsyncSynchronized(New(start)), Reports<T>([U32_MAX as u32, 1 as u32])).1.inner.sum == U32_MAX
    ensures AsyncRun(AsyncSynchronized(New(start)), Reports<T>([1 as u32, U32_MAX as u32])).1.inner.sum == 1
  {
    var s0 := AsyncSynchronized(New(start));
    var a: seq<Op<T>> := Reports([U32_MAX as u32, 1 as u32]);
    assert a == [ReportOp(U32_MAX), ReportOp(1)];
    assert a[1..] == [ReportOp(1)] && a[1..][1..] == [];
    var full := AsyncReport(s0, U32_MAX);
    assert AsyncRun(full, a[1..][1..]) == ([], full);
    assert AsyncRun(full, a[1..]) == ([], full);
    assert AsyncRun(s0, a) == ([], full);
    var b: seq<Op<T>> := Reports([1 as u32, U32_MAX as u32]);
    assert b == [ReportOp(1), ReportOp(U32_MAX)];
    assert b[1..] == [ReportOp(U32_MAX)] && b[1..][1..] == [];
    var one := AsyncReport(s0, 1);
    assert AsyncRun(one, b[1..][1..]) == ([], one);
    assert AsyncRun(one, b[1..]) == ([], one);
    assert AsyncRun(s0, b) == ([], one);
  }

  /** One thread reports `value` while another calls `throughput()`, as in
      the two-thread test of the bare counter behind a mutex. When the
      elapsed time is at least a millisecond, the report is counted exactly
      once: in the rate that is returned when it goes first, or in the
      window that is left open when it goes second. Under a millisecond,
      `throughput()` returns `None` and still resets, so a report that goes
      first is counted nowhere. */
  lemma ReportRacesThroughput<T>(c: Counter<T>, value: u32, elapsed: Duration, now: T)
    requires c.sum == 0
    ensures Run(c, [ReportOp(value), ThroughputOp(elapsed, now)])
         == Some(([Throughput(Report(c, value), elapsed, now).0], New(now)))
    ensures Run(c, [ThroughputOp(elapsed, now), ReportOp(value)])
         == Some(([Throughput(c, elapsed, now).0], Report(New(now), value)))
    ensures DenominatorMillis(elapsed) > 0 ==>
      && Throughput(Report(c, value), elapsed, now).0 == Some(Rate(value, DenominatorMillis(elapsed)))
      && Throughput(c, elapsed, now).0 == Some(Rate(0, DenominatorMillis(elapsed)))
    ensures DenominatorMillis(elapsed) == 0 ==>
      Run(c, [ReportOp(value), ThroughputOp(elapsed, now)]) == Some(([None], New(now)))
  {
    var tp1 := Throughput(Report(c, value), elapsed, now).0;
    assert Run(c, [ReportOp(value), ThroughputOp(elapsed, now)]) == Some(([tp1], New(now))) by {
      var ops: seq<Op<T>> := [ReportOp(value), ThroughputOp(elapsed, now)];
      assert ops[1..] == [ThroughputOp(elapsed, now)];
      assert Run(New(now), ops[1..][1..]) == Some(([], New(now)));
      assert Throughput(Report(c, value), elapsed, now) == (tp1, New(now));
      assert [tp1] + [] == [tp1];
      assert Run(Report(c, value), ops[1..]) == Some(([tp1], New(now)));
    }
    var tp2 := Throughput(c, elapsed, now).0;
    assert Run(c, [ThroughputOp(elapsed, now), ReportOp(value)])
        == Some(([tp2], Report(New(now), value))) by {
      var ops: seq<Op<T>> := [ThroughputOp(elapsed, now), ReportOp(value)];
      assert ops[1..] == [ReportOp(value)];
      assert Run(Report(New(now), value), ops[1..][1..]) == Some(([], Report(New(now), value)));
      assert Run(New(now), ops[1..]) == Some(([], Report(New(now), value)));
      assert Throughput(c, elapsed, now) == (tp2, New(now));
      assert [tp2] + [] == [tp2];
    }
  }
}

=== FILE: time.dfy ===
/** Elapsed time as `std::time::Duration` and the arithmetic that
    `Throughput::throughput` performs on it: whole seconds cast to `u32`
    plus the sub-second part truncated to milliseconds. */
module Time {
  import opened Ints

  const NANOS_PER_SEC: int := 1_000_000_000
  const NANOS_PER_MILLI: int := 1_000_000
  const MILLIS_PER_SEC: int := 1000

  /** The span of nanoseconds after which the `as u32` cast of the seconds
      comes back to zero: 2^32 seconds. */
  const WRAP_NANOS: int := U32_MODULUS * NANOS_PER_SEC

  type Nanos = n: int | 0 <= n < NANOS_PER_SEC

  /** A `Duration`: whole seconds (`as_secs`, a `u64`) and the nanoseconds
      below one second (`subsec_nanos`). */
  datatype Duration = Duration(secs: u64, nanos: Nanos)

  /** The whole duration in nanoseconds, without any wrap-around. */
  function TotalNanos(d: Duration): nat {
    d.secs * NANOS_PER_SEC + d.nanos
  }

  /** `subsec_millis`: the whole milliseconds of the sub-second part. */
  function SubsecMillis(d: Duration): (r: nat)
    ensures r < MILLIS_PER_SEC
    ensures r * NANOS_PER_MILLI <= d.nanos < (r + 1) * NANOS_PER_MILLI
  {
    d.nanos / NANOS_PER_MILLI
  }

  /** The denominator of the rate in whole milliseconds: the seconds after
      the `as u32` cast, plus the truncated sub-second milliseconds. It is
      the duration, taken modulo 2^32 seconds, rounded down to a whole
      millisecond. */
  function DenominatorMillis(d: Duration): (r: nat)
    ensures r < U32_MODULUS * MILLIS_PER_SEC
    ensures r * NANOS_PER_MILLI <= TotalNanos(d) % WRAP_NANOS < (r + 1) * NANOS_PER_MILLI
  {
    var s := AsU32(d.secs);
    WrappedNanos(d);
    s * MILLIS_PER_SEC + SubsecMillis(d)
  }

  /** The floating-point denominator of the rate as an exact real:
      `f64::from(secs as u32) + f64::from(subsec_millis) / 1000.0`. */
  function DenominatorSeconds(d: Duration): (r: real)
    ensures r == DenominatorMillis(d) as real / MILLIS_PER_SEC as real
    ensures r >= 0.0
  {
    AsU32(d.secs) as real + SubsecMillis(d) as real / MILLIS_PER_SEC as real
  }

  /** Reducing the duration modulo 2^32 seconds leaves the wrapped seconds
      and the sub-second nanoseconds. */
  lemma WrappedNanos(d: Duration)
    ensures TotalNanos(d) % WRAP_NANOS == AsU32(d.secs) * NANOS_PER_SEC + d.nanos
  {
    var q := d.secs / U32_MODULUS;
    var s := AsU32(d.secs);
    var rest := s * NANOS_PER_SEC + d.nanos;
    assert d.secs == q * U32_MODULUS + s;
    assert TotalNanos(d) == q * WRAP_NANOS + rest;
    ModOfWraps(q, rest);
  }

  /** Whole multiples of 2^32 seconds vanish modulo 2^32 seconds. */
  lemma ModOfWraps(q: nat, rest: nat)
    requires rest < WRAP_NANOS
    ensures (q * WRAP_NANOS + rest) % WRAP_NANOS == rest
  {
  }

  /** The denominator is zero exactly when the seconds are a multiple of 2^32
      and less than one millisecond is left over. */
  lemma DenominatorZeroIff(d: Duration)
    ensures DenominatorMillis(d) == 0 <==> d.secs % U32_MODULUS == 0 && d.nanos < NANOS_PER_MILLI
    ensures DenominatorSeconds(d) == 0.0 <==> DenominatorMillis(d) == 0
  {
  }

  /** Any elapsed time under one millisecond gives a zero denominator. */
  lemma SubMillisecondIsZero(d: Duration)
    requires TotalNanos(d) < NANOS_PER_MILLI
    ensures DenominatorMillis(d) == 0
  {
  }

  /** Nanoseconds below the whole millisecond never change the denominator. */
  lemma SubMillisIgnored(d1: Duration, d2: Duration)
    requires d1.secs == d2.secs
    requires d1.nanos / NANOS_PER_MILLI == d2.nanos / NANOS_PER_MILLI
    ensures DenominatorMillis(d1) == DenominatorMillis(d2)
    ensures DenominatorSeconds(d1) == DenominatorSeconds(d2)
  {
  }
}

=== FILE: tp.dfy ===
/** The unsynchronized throughput counter `Throughput<T>`: a measurement
    window opened at an instant of the time source `T`, and the units
    reported since then.

    The time source is abstract: `T::now()` is the argument `now: T` of the
    operations that open a window, and the `elapsed()` that `throughput`
    reads is its argument `elapsed`. */
module Tp {
  import opened Ints
  import opened Time

  /** std's `Option`: the result of `throughput()`, and the panic of a
      debug-build `report` as `None`. */
  datatype Option<+V> = None | Some(value: V)

  /** The `Throughput<T>` struct: the start of the current window and the
      sum of the units reported in it. */
  datatype Counter<T> = Counter(initialTime: T, sum: u32)

  /** A rate, kept exact: `units` over a window of `millis` milliseconds. */
  datatype Rate = Rate(units: u32, millis: nat)

  /** The rate in units per second. */
  function PerSecond(r: Rate): real
    requires r.millis > 0
  {
    r.units as real * MILLIS_PER_SEC as real / r.millis as real
  }

  /** `Throughput::new`: a window that starts now and holds nothing. */
  function New<T>(now: T): (c: Counter<T>)
    ensures c.sum == 0
    ensures c.initialTime == now
  {
    Counter(now, 0)
  }

  /** `Default::default` is `new`. */
  function Default<T>(now: T): (c: Counter<T>)
    ensures c == New(now)
  {
    New(now)
  }

  /** `report(value)`: `sum += value`. The addition panics on overflow in a
      debug build, so a call is only defined when the new sum fits. */
  function Report<T>(c: Counter<T>, value: u32): (r: Counter<T>)
    requires c.sum + value <= U32_MAX
    ensures r.initialTime == c.initialTime
    ensures r.sum - c.sum == value
    ensures r.sum >= c.sum
  {
    c.(sum := c.sum + value)
  }

  /** `report(value)` in a debug build with the overflow made visible:
      `None` stands for the panic. */
  function ReportChecked<T>(c: Counter<T>, value: u32): (r: Option<Counter<T>>)
    ensures r.None? <==> c.sum + value > U32_MAX
    ensures r.Some? ==> r.value == Report(c, value)
  {
    if c.sum + value <= U32_MAX then Some(c.(sum := c.sum + value)) else None
  }

  /** `report(value)` in a release build, where `+=` wraps modulo 2^32. */
  function ReportWrapping<T>(c: Counter<T>, value: u32): (r: Counter<T>)
    ensures r.initialTime == c.initialTime
    ensures c.sum + value <= U32_MAX ==> r == Report(c, value)
    ensures c.sum + value > U32_MAX ==> r.sum < c.sum && r.sum == c.sum + value - U32_MODULUS
  {
    c.(sum := (c.sum + value) % U32_MODULUS)
  }

  /** `reset()`: a new window starting now, with nothing reported in it. */
  function Reset<T>(c: Counter<T>, now: T): (r: Counter<T>)
    ensures r == New(now)
  {
    Counter(now, 0)
  }

  /** `throughput()`: the rate of the current window, `None` when the
      denominator is zero, and always a fresh window afterwards. */
  function Throughput<T>(c: Counter<T>, elapsed: Duration, now: T): (r: (Option<Rate>, Counter<T>))
    ensures r.1 == New(now)
    ensures r.0.None? <==> DenominatorSeconds(elapsed) == 0.0
    ensures r.0.Some? ==> r.0.value == Rate(c.sum, DenominatorMillis(elapsed))
    ensures r.0.Some? ==> PerSecond(r.0.value) == c.sum as real / DenominatorSeconds(elapsed)
  {
    var denominator := DenominatorMillis(elapsed);
    var tp := if denominator == 0 then None else Some(Rate(c.sum, denominator));
    PerSecondOfMillis(c.sum, denominator);
    (tp, Reset(c, now))
  }

  /** Dividing by a window of `millis` milliseconds is dividing by
      `millis / 1000` seconds. */
  lemma PerSecondOfMillis(units: u32, millis: nat)
    ensures millis > 0 ==>
      PerSecond(Rate(units, millis)) == units as real / (millis as real / MILLIS_PER_SEC as real)
  {
    if millis > 0 {
      var u := units as real;
      var m := millis as real;
      assert (m / 1000.0) * (u * 1000.0 / m) == u;
    }
  }

  /** `None` comes back exactly when the seconds cast to `u32` are zero and
      the sub-second milliseconds are zero: in particular under one
      millisecond, and at an exact multiple of 2^32 seconds. */
  lemma ThroughputNoneIff<T>(c: Counter<T>, elapsed: Duration, now: T)
    ensures Throughput(c, elapsed, now).0.None?
        <==> AsU32(elapsed.secs) == 0 && SubsecMillis(elapsed) == 0
    ensures TotalNanos(elapsed) < NANOS_PER_MILLI ==> Throughput(c, elapsed, now).0.None?
    ensures elapsed.secs % U32_MODULUS == 0 && elapsed.nanos < NANOS_PER_MILLI ==> Throughput(c, elapsed, now).0.None?
  {
    DenominatorZeroIff(elapsed);
  }

  /** Two elapsed times with the same seconds and the same whole
      milliseconds give the same result and the same next window. */
  lemma ThroughputIgnoresSubMillis<T>(c: Counter<T>, e1: Duration, e2: Duration, now: T)
    requires e1.secs == e2.secs
    requires e1.nanos / NANOS_PER_MILLI == e2.nanos / NANOS_PER_MILLI
    ensures Throughput(c, e1, now) == Throughput(c, e2, now)
  {
    SubMillisIgnored(e1, e2);
  }

  /** The total of a sequence of reported values. */
  function Sum(values: seq<u32>): nat {
    if |values| == 0 then 0 else Sum(values[..|values| - 1]) + values[|values| - 1]
  }

  /** `report` called once per value, in order; the reports must not
      overflow. */
  function ReportAll<T>(c: Counter<T>, values: seq<u32>): (r: Counter<T>)
    requires c.sum + Sum(values) <= U32_MAX
    ensures r.initialTime == c.initialTime
    ensures r.sum == c.sum + Sum(values)
    decreases |values|
  {
    if |values| == 0 then c
    else
      var prefix := values[..|values| - 1];
      Report(ReportAll(c, prefix), values[|values| - 1])
  }

  /** The sum is the same whatever the order of the values: concurrent
      reporters serialized by a lock in any order lose no update. */
  lemma {:induction false} SumPermutation(a: seq<u32>, b: seq<u32>)
    requires multiset(a) == multiset(b)
    ensures Sum(a) == Sum(b)
    decreases |a|
  {
    if |a| == 0 {
      assert |b| == |multiset(b)| == 0;
    } else {
      var x := a[|a| - 1];
      var a' := a[..|a| - 1];
      assert a == a' + [x];
      assert x in multiset(b);
      var i :| 0 <= i < |b| && b[i] == x;
      var b' := b[..i] + b[i + 1..];
      assert b == b[..i] + [x] + b[i + 1..];
      assert multiset(a) == multiset(a') + multiset{x};
      assert multiset(b) == multiset(b[..i]) + multiset{x} + multiset(b[i + 1..]);
      assert multiset(b') == multiset(b[..i]) + multiset(b[i + 1..]);
      assert multiset(a') == multiset(a) - multiset{x} == multiset(b) - multiset{x} == multiset(b');
      SumPermutation(a', b');
      SumRemove(b, i);
    }
  }

  /** Taking out one element of a sequence takes it out of the sum. */
  lemma {:induction false} SumRemove(s: seq<u32>, i: nat)
    requires i < |s|
    ensures Sum(s) == Sum(s[..i] + s[i + 1..]) + s[i]
    decreases |s|
  {
    var last := |s| - 1;
    if i == last {
      assert s[..i] + s[i + 1..] == s[..last];
    } else {
      var s' := s[..last];
      SumRemove(s', i);
      assert (s[..i] + s[i + 1..])[..|s| - 2] == s'[..i] + s'[i + 1..];
      assert (s[..i] + s[i + 1..])[|s| - 2] == s[last];
    }
  }

  /** The total of a sequence is its first value plus the total of the rest. */
  lemma {:induction false} SumCons(x: u32, values: seq<u32>)
    ensures Sum([x] + values) == x + Sum(values)
    decreases |values|
  {
    if |values| > 0 {
      var last := |values| - 1;
      assert ([x] + values)[..|values|] == [x] + values[..last];
      SumCons(x, values[..last]);
    } else {
      assert ([x] + values)[..0] == [];
    }
  }

  /** Reports in any order leave the same counter. */
  lemma ReportOrderIrrelevant<T>(c: Counter<T>, a: seq<u32>, b: seq<u32>)
    requires multiset(a) == multiset(b)
    requires c.sum + Sum(a) <= U32_MAX
    ensures c.sum + Sum(b) <= U32_MAX
    ensures ReportAll(c, a) == ReportAll(c, b)
  {
    SumPermutation(a, b);
  }

  /** Reports `v1 … vn` into a fresh window followed by `throughput()` over
      an elapsed time `E` give `(v1 + … + vn) / E`, or `None` when `E`
      truncates to zero. */
  lemma ReportsThenThroughput<T>(start: T, values: seq<u32>, elapsed: Duration, now: T)
    requires Sum(values) <= U32_MAX
    ensures var r := Throughput(ReportAll(New(start), values), elapsed, now);
      && (r.0.None? <==> DenominatorMillis(elapsed) == 0)
      && (r.0.Some? ==> PerSecond(r.0.value) == Sum(values) as real / DenominatorSeconds(elapsed))
  {
  }

  /** A `throughput()` call is a window boundary: what was reported before it
      never reaches the next one, so the next result depends only on the
      reports made after it. */
  lemma WindowIsolation<T>(c1: Counter<T>, c2: Counter<T>, e1: Duration, e2: Duration, now: T,
                           values: seq<u32>, elapsed: Duration, later: T)
    requires Sum(values) <= U32_MAX
    ensures Throughput(c1, e1, now).1 == Throughput(c2, e2, now).1 == New(now)
    ensures Throughput(ReportAll(Throughput(c1, e1, now).1, values), elapsed, later)
         == Throughput(ReportAll(New(now), values), elapsed, later)
  {
  }

  /** Two `throughput()` calls in a row with no report between them: the
      second sees an empty window. */
  lemma ThroughputTwice<T>(c: Counter<T>, e1: Duration, now1: T, e2: Duration, now2: T)
    ensures var r := Throughput(Throughput(c, e1, now1).1, e2, now2);
      r.0.Some? ==> r.0.value.units == 0 && PerSecond(r.0.value) == 0.0
  {
  }
}
